=== FILE: README.md ===
# Telemetry ingestor: signal validation and routing

This project is a Dafny model of the decision logic in a vessel-telemetry
ingestion service. An HTTP request carries a vessel id, a UTC timestamp and
a JSON object of named signal values. The service does the following:

- It refuses a request whose bearer token does not match the configured API token (401).
- It refuses a timestamp that does not parse (400).
- It refuses a vessel that is unknown or inactive (403).
- It classifies every signal against the signal registry. A registered
  digital signal must be the integer 0 or 1. A registered analog signal must
  be a number serde_json keeps as a float, in [1.0, 65535.0]. Anything else, including an
  unregistered name, is rejected with a reason code.
- It writes each rejected signal to `filtered_raw` as soon as it is
  classified. After the loop it writes the accepted signals to `main_raw`,
  then one row to `server_metrics`.
- It answers with the number of accepted signals. Any database failure
  becomes a generic 500.

Modules:

- `Json` (json.dfy): serde_json's three representations of a JSON number
  and the accessors the handler calls, including Rust's `u as i64`
  reinterpretation. Only negative integers are `NegInt`; `-0` is a float.
- `App` (app.dfy): `SignalKind` and the registry type.
- `Postgres` (postgres.dfy): the registry loader, written as the loop that
  folds rows into a map. It also holds a `Database` class whose fields are
  the tables the handler touches. Each INSERT appends one row. Every
  statement may fail, which is modelled as a nondeterministic choice.
- `Telemetry` (telemetry.dfy): `Classify` (the nested match), `Route` (the
  specification of the signal loop) and the handler `IngestTelemetry` with
  its two loops, `FilterSignals` and `StoreAccepted`. It also holds the
  lemmas about routing: exactly one outcome per signal, the accepted and
  rejected names partition the payload, and order independence.
- `Auth` (auth.dfy): the bearer-token admission decision.

Edge cases of the handler's classification, as the model states them:

- An unregistered name is rejected with `unknown_signal`.
- serde_json keeps an integer literal as an integer only while it fits: in a
  u64 when non-negative, in an i64 when negative. Any integer literal outside
  [-2^63, 2^64) becomes a float.
- A digital integer that fits, other than 0 and 1, is rejected with
  `out_of_range`. A digital integer literal too wide to fit is a float, so it
  is a `type_mismatch`.
- An analog value written as an integer literal that fits (`123`) is a
  `type_mismatch`, because the handler requires `is_f64()`. One too wide to
  fit is a float, so it is `out_of_range` with its value stored.
- The stored value of an out-of-range digital integer in
  (`i64::MAX`, 2^64) is that integer minus 2^64. This is the effect of
  `u as i64`.
- Every database statement that fails is counted in a ghost field of the
  `Database` class, so the handler's contract can say which response a
  failure leads to.

## Model

| member | source | states |
|---|---|---|
| `Json.U64AsI64` | src/routes/telemetry.rs:53-54 | `u as i64` gives the i64 congruent to `u` modulo 2^64, unchanged when `u` fits |
| `Json.ParsedInteger` | src/routes/telemetry.rs:49-50 | an integer literal is kept as an integer exactly when it lies in [-2^63, 2^64), and otherwise as a float; `as_f64` reads back its value either way |
| `Postgres.KindOf` | src/db/postgres.rs:28-32 | a type string yields `Digital` exactly when it is `"digital"`; every other string, including `"analog"`, other cases and `""`, yields `Analog` |
| `Postgres.LoadSignalRegistry` | src/db/postgres.rs:24-35 | the registry's keys are exactly the names in the rows, so its size is the number of distinct names; each name maps to the kind of the last row carrying it (later inserts overwrite) |
| `Postgres.Database.VesselExists` | src/db/postgres.rs:38-47 | a query that succeeds answers whether the vessel id is registered and active; a query that fails is counted as one failure |
| `Postgres.Database.InsertRaw` | src/db/postgres.rs:49-69 | appends exactly the given row to `main_raw` when it succeeds, leaves the table unchanged and counts one failure when it fails |
| `Postgres.Database.InsertFiltered` | src/db/postgres.rs:71-93 | appends exactly the given row to `filtered_raw` when it succeeds, leaves the table unchanged and counts one failure when it fails |
| `Postgres.Database.InsertMetrics` | src/db/postgres.rs:95-115 | appends exactly the given row to `server_metrics` when it succeeds, leaves the table unchanged and counts one failure when it fails |
| `Telemetry.Classify` | src/routes/telemetry.rs:41-129 | an accepted value lies in its kind's legal domain: 0.0 or 1.0 for digital, [1.0, 65535.0] for analog; `unknown_signal` is given exactly to unregistered names; a `type_mismatch` never stores a number |
| `Telemetry.ClassifyUnknown` | src/routes/telemetry.rs:119-128 | an unregistered name is always rejected as `unknown_signal`, whatever its value; the stored value is the number sent, or NaN for a non-number |
| `Telemetry.ClassifyDigital` | src/routes/telemetry.rs:47-85 | a digital signal is accepted if and only if serde_json keeps it as the integer 0 or 1, stored as 0.0 or 1.0; another integer kept as u64 or i64 is `out_of_range` with the integer stored, wrapped above `i64::MAX`; a number kept as a float, such as `0.5`, `1.0` or an integer literal too wide for 64 bits, or any non-number, is `type_mismatch` with NaN stored |
| `Telemetry.ClassifyAnalog` | src/routes/telemetry.rs:87-116 | an analog number kept as a float is accepted unchanged if and only if it lies in [1.0, 65535.0], bounds included; otherwise it is `out_of_range` with the value stored; an integer kept as u64 or i64, or a non-number, is `type_mismatch` with NaN stored |
| `Telemetry.WideIntegerLiterals` | src/routes/telemetry.rs:47-101 | an integer literal outside [-2^63, 2^64) is a `type_mismatch` for a digital signal and `out_of_range` with its value stored for an analog signal, because serde_json keeps it as a float |
| `Telemetry.Route` | src/routes/telemetry.rs:40-130 | every signal produces exactly one outcome: accepted plus rejected equals the number of signals |
| `Telemetry.RouteComplete` | src/routes/telemetry.rs:40-130 | every signal appears in the destination its outcome names, with its value, or with its reason and stored value |
| `Telemetry.RouteSound` | src/routes/telemetry.rs:40-130 | every accepted or rejected entry comes from a payload signal with exactly that outcome |
| `Telemetry.RoutePartition` | src/routes/telemetry.rs:40-130 | for a JSON object (distinct names), the accepted names and the rejected names are disjoint and together are exactly the payload's names |
| `Telemetry.RouteAppend` | src/routes/telemetry.rs:40-130 | routing a concatenation concatenates the routings of its parts |
| `Telemetry.RoutePrefix` | src/routes/telemetry.rs:40-130 | after the first signals, both destinations hold a prefix of their final contents |
| `Telemetry.RouteOrderIndependent` | src/routes/telemetry.rs:40 | any reordering of the payload (the unspecified map iteration order) yields the same accepted and rejected entries as multisets |
| `Telemetry.FilterSignals` | src/routes/telemetry.rs:38-130 | the signal loop keeps the accepted signals in order and writes one `filtered_raw` row per rejected signal; on a failed write, `filtered_raw` holds a prefix of those rows; exactly one failure is counted when it stops early, none otherwise |
| `Telemetry.StoreAccepted` | src/routes/telemetry.rs:134-141 | writes one `main_raw` row per accepted signal, in order; on a failed write, a prefix of them, with exactly one failure counted |
| `Telemetry.IngestTelemetry` | src/routes/telemetry.rs:10-180 | 400 if and only if the timestamp does not parse, and then the database is left exactly as it was, not even queried; 500 if and only if some statement failed, and at most one fails; 403 if and only if the vessel is unknown or inactive and nothing failed, in which case nothing is written; `Ok` if and only if the timestamp parses, the vessel is active and nothing failed, even when no signal is accepted; on success `filtered_raw` gains exactly the rejected rows, `main_raw` exactly the accepted rows, `server_metrics` exactly one row, and the body reports the accepted count; on a failure, no metrics row and no raw row before all filtered rows |
| `Telemetry.MixedPayloadRouting` | src/routes/telemetry.rs:40-130 | a digital 1 and an analog 123.4 are accepted; an unregistered name carrying 3.14 is rejected as `unknown_signal` with 3.14 stored |
| `Telemetry.AllRejectedPayload` | src/routes/telemetry.rs:104-116 | a boolean for a digital signal and a numeric string for an analog one are both `type_mismatch`, leaving zero valid signals; by the handler's contract such a request is still a success when nothing fails |
| `Auth.HeaderText` | src/middleware/auth.rs:9-13 | a missing header, or one that is not visible ASCII, reads as the empty string; a visible-ASCII header reads as itself |
| `Auth.StripPrefix` | src/middleware/auth.rs:16 | a rest is returned exactly when the text starts with the prefix, and prefix plus rest is the text |
| `Auth.Authorize` | src/middleware/auth.rs:9-26 | a request proceeds if and only if the header is exactly `"Bearer "` followed by the API token, and that token is non-empty visible ASCII |
| `Auth.MissingPrefixRefused` | src/middleware/auth.rs:16-19 | a header without the exact, case-sensitive `"Bearer "` prefix is refused |
| `Auth.BarePrefixRefused` | src/middleware/auth.rs:16-19 | the header `"Bearer "` alone is refused, whatever the configured token |

## Left out

- SQL, the connection pool and `create_pool`: tables are sequences of rows and an INSERT is an append.
- The registry query and its decoding (`fetch_all`, `try_get`): `LoadSignalRegistry` starts from the rows, and a failure to read them is not modelled.
- `vessel_register_table` is reduced to the set of active vessel ids.
- Timestamp parsing (chrono's RFC 3339 parser) is an input: `None` when the text does not parse. The `epochUTC` field is carried but never read, as in the handler.
- Timings from `Instant` are opaque integers passed in. Nothing is proved about their magnitudes.
- Floating point: JSON numbers are exact integers and reals. Converting a large integer to `f64` is exact here, so rounding is not modelled. A stored NaN is `None`.
- JSON parsing, the Axum router, the `HeaderMap` lookup, logging, process start-up, shutdown and the health check are not part of this model.
- Reading `API_TOKEN` from the environment: `Authorize` takes the token as a parameter. Its iff holds for any token, so the start-up rule that the token is not blank is not needed.
- Concurrency between requests is not modelled. Each request is one sequential method call.

=== FILE: app.dfy ===
/** Shared application types: the declared kind of a signal and the registry of kinds. */
module App {

  datatype SignalKind = Digital | Analog

  /** The signal registry, loaded once at start-up and read-only afterwards. */
  type Registry = map<string, SignalKind>

}

=== FILE: auth.dfy ===
/**
 * The bearer-token check that guards the API: a request proceeds only when
 * its Authorization header carries exactly "Bearer " followed by the
 * configured API token.
 */
module Auth {
  import opened Wrappers

  newtype byte = b: int | 0 <= b < 256

  /** The bytes of "Bearer " (the case matters, and so does the single space). */
  const BEARER_PREFIX: seq<byte> := [66, 101, 97, 114, 101, 114, 32]

  datatype Decision = Proceed | Unauthorized

  /** What `HeaderValue::to_str` accepts: visible ASCII or a horizontal tab. */
  predicate IsVisibleAscii(b: byte) {
    b == 9 || 32 <= b < 127
  }

  predicate AllVisibleAscii(s: seq<byte>) {
    forall k :: 0 <= k < |s| ==> IsVisibleAscii(s[k])
  }

  /** The header as text: absent, or not convertible to a string, reads as empty. */
  function HeaderText(header: Option<seq<byte>>): (text: seq<byte>)
    ensures text == [] || (header.Some? && text == header.value)
    ensures AllVisibleAscii(text)
    ensures header.Some? && AllVisibleAscii(header.value) ==> text == header.value
  {
    match header
    case Some(h) => if AllVisibleAscii(h) then h else []
    case None => []
  }

  /** `str::strip_prefix`. */
  function StripPrefix(s: seq<byte>, prefix: seq<byte>): (rest: Option<seq<byte>>)
    ensures rest.Some? <==> |prefix| <= |s| && s[..|prefix|] == prefix
    ensures rest.Some? ==> s == prefix + rest.value
  {
    if |prefix| <= |s| && s[..|prefix|] == prefix then Some(s[|prefix|..]) else None
  }

  /**
   * `auth_middleware`: `authorization` is the raw Authorization header, if
   * present, and `apiToken` the bytes of the configured token.
   */
  function Authorize(authorization: Option<seq<byte>>, apiToken: seq<byte>): (d: Decision)
    ensures d == Proceed <==>
              authorization == Some(BEARER_PREFIX + apiToken) && apiToken != [] && AllVisibleAscii(apiToken)
  {
    var authHeader := HeaderText(authorization);
    var token := match StripPrefix(authHeader, BEARER_PREFIX)
                 case Some(t) => t
                 case None => [];
    if token == [] then Unauthorized
    else if token != apiToken then Unauthorized
    else Proceed
  }

  /** Without the exact, case-sensitive prefix the token is empty and the request is refused. */
  lemma MissingPrefixRefused(header: seq<byte>, apiToken: seq<byte>)
    requires !(|BEARER_PREFIX| <= |header| && header[..|BEARER_PREFIX|] == BEARER_PREFIX)
    ensures Authorize(Some(header), apiToken) == Unauthorized
  {
  }

  /** A header that is just the prefix is refused, so an empty token never passes. */
  lemma BarePrefixRefused(apiToken: seq<byte>)
    ensures Authorize(Some(BEARER_PREFIX), apiToken) == Unauthorized
  {
  }

}

=== FILE: json.dfy ===
/**
 * The part of serde_json's value model that the ingestion handler inspects.
 *
 * serde_json keeps a JSON number in one of three representations: a
 * non-negative integer that fits in a u64, a negative integer that fits in
 * an i64, or an f64. The third holds every float literal and also every
 * integer literal outside [-2^63, 2^64), which the parser turns into a
 * float. Floats are modelled as exact reals; JSON has no NaN or infinity,
 * so every such number is finite.
 */
module Json {
  import opened Wrappers

  const I64_MIN: int := -0x8000_0000_0000_0000
  const I64_MAX: int := 0x7FFF_FFFF_FFFF_FFFF
  const TWO_TO_64: int := 0x1_0000_0000_0000_0000

  newtype u64 = x: int | 0 <= x < 0x1_0000_0000_0000_0000
  newtype i64 = x: int | -0x8000_0000_0000_0000 <= x < 0x8000_0000_0000_0000

  /** serde_json keeps only negative integers as `NegInt`; `-0` is a float. */
  type NegI64 = x: i64 | x < 0 witness -1

  datatype JsonNumber =
    | PosInt(u: u64)
    | NegInt(i: NegI64)
    | Float(f: real)

  datatype JsonValue =
    | Null
    | Bool(b: bool)
    | Number(n: JsonNumber)
    | Str(s: string)
    | Array(elems: seq<JsonValue>)
    | Object(members: map<string, JsonValue>)

  /** `Number::is_i64`: an integer representable as an i64. */
  predicate IsI64(n: JsonNumber) {
    match n
    case PosInt(u) => u as int <= I64_MAX
    case NegInt(_) => true
    case Float(_) => false
  }

  /** `Number::is_u64`: stored as a non-negative integer. */
  predicate IsU64(n: JsonNumber) {
    n.PosInt?
  }

  /** `Number::is_f64`: kept as a float, either a float literal or an integer too wide for 64 bits. */
  predicate IsF64(n: JsonNumber) {
    n.Float?
  }

  /** `Number::as_i64`. */
  function AsI64(n: JsonNumber): Option<int> {
    match n
    case PosInt(u) => if u as int <= I64_MAX then Some(u as int) else None
    case NegInt(i) => Some(i as int)
    case Float(_) => None
  }

  /** `Number::as_u64`. */
  function AsU64(n: JsonNumber): Option<u64> {
    match n
    case PosInt(u) => Some(u)
    case _ => None
  }

  /** `Number::as_f64`, which always succeeds; integer-to-float rounding is not modelled. */
  function AsF64(n: JsonNumber): Option<real> {
    match n
    case PosInt(u) => Some(u as real)
    case NegInt(i) => Some(i as real)
    case Float(f) => Some(f)
  }

  /** Rust's `u as i64` on a u64: the i64 with the same 64-bit pattern. */
  function U64AsI64(u: u64): (r: int)
    ensures I64_MIN <= r <= I64_MAX
    ensures (u as int - r) % TWO_TO_64 == 0
    ensures u as int <= I64_MAX ==> r == u as int
  {
    if u as int <= I64_MAX then u as int else u as int - TWO_TO_64
  }

  /** The integer serde_json keeps as `PosInt` or `NegInt`, if the value is one. */
  function StoredInteger(v: JsonValue): Option<int> {
    match v
    case Number(PosInt(u)) => Some(u as int)
    case Number(NegInt(i)) => Some(i as int)
    case _ => None
  }

  /**
   * The number serde_json builds from an integer literal: an integer while
   * it fits in a u64 or, when negative, in an i64, and a float beyond that.
   */
  function ParsedInteger(n: int): (r: JsonNumber)
    ensures StoredInteger(Number(r)) == if I64_MIN <= n < TWO_TO_64 then Some(n) else None
    ensures AsF64(r) == Some(n as real)
  {
    if 0 <= n < TWO_TO_64 then PosInt(n as u64)
    else if I64_MIN <= n < 0 then NegInt(n as i64)
    else Float(n as real)
  }

  /** The real serde_json keeps as `Float`, if the value is one. */
  function StoredFloat(v: JsonValue): Option<real> {
    match v
    case Number(Float(f)) => Some(f)
    case _ => None
  }

}

=== FILE: postgres.dfy ===
/**
 * The database layer: the registry loader, and the tables the ingestion
 * handler reads and writes. SQL itself is not modelled: each table is a
 * sequence of rows, an INSERT appends one row, and any statement may fail
 * (connectivity, constraint violation), which is a nondeterministic choice.
 */
module Postgres {
  import opened Wrappers
  import opened App

  /** A parsed UTC instant; its representation is not inspected. */
  type Timestamp = int

  /** One row of `signal_register_table`. */
  datatype RegisterRow = RegisterRow(signalName: string, signalType: string)

  /** Maps a declared `signal_type` to a kind; any text but "digital" means analog. */
  function KindOf(signalType: string): (k: SignalKind)
    ensures k == Digital <==> signalType == "digital"
  {
    match signalType
    case "digital" => Digital
    case "analog" => Analog
    case _ => Analog
  }

  /** The names that occur in the rows. */
  function Names(rows: seq<RegisterRow>): set<string> {
    set r | r in rows :: r.signalName
  }

  /** Row `i` is the last of `rows[..upto]` that carries its name. */
  predicate LastOccurrence(rows: seq<RegisterRow>, i: nat, upto: nat)
    requires i < upto <= |rows|
  {
    forall j :: i < j < upto ==> rows[j].signalName != rows[i].signalName
  }

  /**
   * `load_signal_registry` after the query: fold the rows into a map, the
   * later of two rows with one name overwriting the earlier.
   */
  method LoadSignalRegistry(rows: seq<RegisterRow>) returns (registry: Registry)
    ensures registry.Keys == Names(rows)
    ensures |registry| == |Names(rows)|
    ensures forall i :: 0 <= i < |rows| && LastOccurrence(rows, i, |rows|) ==>
              registry[rows[i].signalName] == KindOf(rows[i].signalType)
  {
    registry := map[];
    var k := 0;
    while k < |rows|
      invariant 0 <= k <= |rows|
      invariant registry.Keys == Names(rows[..k])
      invariant forall i :: 0 <= i < k && LastOccurrence(rows, i, k) ==>
                  registry[rows[i].signalName] == KindOf(rows[i].signalType)
    {
      LoadStep(rows, k, registry);
      registry := registry[rows[k].signalName := KindOf(rows[k].signalType)];
      k := k + 1;
    }
    assert rows[..k] == rows;
  }

  /** One `map.insert` of the loader keeps both loop invariants one row further on. */
  lemma LoadStep(rows: seq<RegisterRow>, k: nat, registry: Registry)
    requires k < |rows|
    requires registry.Keys == Names(rows[..k])
    requires forall i :: 0 <= i < k && LastOccurrence(rows, i, k) ==>
               registry[rows[i].signalName] == KindOf(rows[i].signalType)
    ensures var next := registry[rows[k].signalName := KindOf(rows[k].signalType)];
            next.Keys == Names(rows[..k + 1]) &&
            forall i :: 0 <= i < k + 1 && LastOccurrence(rows, i, k + 1) ==>
              next[rows[i].signalName] == KindOf(rows[i].signalType)
  {
    var r := rows[k];
    var next := registry[r.signalName := KindOf(r.signalType)];
    assert rows[..k + 1] == rows[..k] + [r];
    assert Names(rows[..k + 1]) == Names(rows[..k]) + {r.signalName};
    forall i | 0 <= i < k + 1 && LastOccurrence(rows, i, k + 1)
      ensures next[rows[i].signalName] == KindOf(rows[i].signalType)
    {
      if i < k {
        assert rows[k].signalName != rows[i].signalName;
        assert LastOccurrence(rows, i, k);
      }
    }
  }

  /** One row of `main_raw`: an accepted signal. */
  datatype RawRow = RawRow(vesselId: string, timestamp: Timestamp, signalName: string, signalValue: real)

  /** One row of `filtered_raw`: a rejected signal; a NaN value is `None`. */
  datatype FilteredRow = FilteredRow(vesselId: string, timestamp: Timestamp, signalName: string,
                                     signalValue: Option<real>, reason: string)

  /** One row of `server_metrics`. */
  datatype MetricsRow = MetricsRow(vesselId: string, validationMs: int, ingestionMs: int, totalMs: int)

  /**
   * The connection pool, seen as the tables behind it. `failures` counts
   * the statements that failed; it is not part of the database, only a
   * record that lets callers say when a failure happened.
   */
  class Database {
    /** Ids of `vessel_register_table` rows with `is_active = TRUE`. */
    var activeVessels: set<string>
    var mainRaw: seq<RawRow>
    var filteredRaw: seq<FilteredRow>
    var serverMetrics: seq<MetricsRow>
    ghost var failures: nat

    constructor (active: set<string>)
      ensures activeVessels == active
      ensures mainRaw == [] && filteredRaw == [] && serverMetrics == []
      ensures failures == 0
    {
      activeVessels := active;
      mainRaw, filteredRaw, serverMetrics := [], [], [];
      failures := 0;
    }

    /** `vessel_exists`: `None` when the query fails, otherwise whether the vessel is registered and active. */
    method VesselExists(vesselId: string) returns (exists_: Option<bool>)
      modifies this`failures
      ensures exists_.Some? ==> exists_.value == (vesselId in activeVessels)
      ensures failures == if exists_.Some? then old(failures) else old(failures) + 1
    {
      var ok: bool := *;
      exists_ := if ok then Some(vesselId in activeVessels) else None;
      if !ok {
        failures := failures + 1;
      }
    }

    /** `insert_raw`: appends one row unless the statement fails. */
    method InsertRaw(row: RawRow) returns (ok: bool)
      modifies this`mainRaw, this`failures
      ensures mainRaw == if ok then old(mainRaw) + [row] else old(mainRaw)
      ensures failures == if ok then old(failures) else old(failures) + 1
    {
      ok := *;
      if ok {
        mainRaw := mainRaw + [row];
      } else {
        failures := failures + 1;
      }
    }

    /** `insert_filtered`: appends one row unless the statement fails. */
    method InsertFiltered(row: FilteredRow) returns (ok: bool)
      modifies this`filteredRaw, this`failures
      ensures filteredRaw == if ok then old(filteredRaw) + [row] else old(filteredRaw)
      ensures failures == if ok then old(failures) else old(failures) + 1
    {
      ok := *;
      if ok {
        filteredRaw := filteredRaw + [row];
      } else {
        failures := failures + 1;
      }
    }

    /** `insert_metrics`: appends one row unless the statement fails. */
    method InsertMetrics(row: MetricsRow) returns (ok: bool)
      modifies this`serverMetrics, this`failures
      ensures serverMetrics == if ok then old(serverMetrics) + [row] else old(serverMetrics)
      ensures failures == if ok then old(failures) else old(failures) + 1
    {
      ok := *;
      if ok {
        serverMetrics := serverMetrics + [row];
      } else {
        failures := failures + 1;
      }
    }
  }

}

=== FILE: telemetry.dfy ===
/**
 * The telemetry ingestion handler: per-signal classification against the
 * registry, routing of every signal to `main_raw` or `filtered_raw`, one
 * metrics row per request, and the request-level errors around them.
 */
module Telemetry {
  import opened Wrappers
  import opened Json
  import opened App
  import opened Postgres

  /** Why a signal was rejected. */
  datatype Reason = TypeMismatch | OutOfRange | UnknownSignal {
    /** The text written to `filtered_raw.reason`. */
    function Code(): string {
      match this
      case TypeMismatch => "type_mismatch"
      case OutOfRange => "out_of_range"
      case UnknownSignal => "unknown_signal"
    }
  }

  /** The fate of one signal: kept with its value, or filtered with a reason and a stored value (`None` is NaN). */
  datatype Outcome = Accept(value: real) | Reject(reason: Reason, stored: Option<real>)

  /** Inclusive bounds of a legal analog value. */
  const ANALOG_MIN: real := 1.0
  const ANALOG_MAX: real := 65535.0

  /** `signal_registry.get(name).copied()`. */
  function Lookup(registry: Registry, name: string): Option<SignalKind> {
    if name in registry then Some(registry[name]) else None
  }

  /**
   * The nested match of the handler's signal loop, written with serde_json's
   * accessors as the handler uses them. `ClassifyUnknown`, `ClassifyDigital`
   * and `ClassifyAnalog` state its decision table in terms of the literal
   * that was sent.
   */
  function Classify(kind: Option<SignalKind>, value: JsonValue): (o: Outcome)
    // an accepted value lies in the legal domain of its declared kind
    ensures o.Accept? ==>
      kind.Some? &&
      if kind.value == Digital then o.value == 0.0 || o.value == 1.0
      else ANALOG_MIN <= o.value <= ANALOG_MAX
    // "unknown_signal" is given exactly to unregistered names
    ensures (o.Reject? && o.reason == UnknownSignal) <==> kind.None?
    // a type mismatch never stores a number
    ensures o.Reject? && o.reason == TypeMismatch ==> o.stored.None?
  {
    match kind
    case Some(k) =>
      (match (k, value)
      case (Digital, Number(n)) =>
        if IsI64(n) || IsU64(n) then
          var v := if AsI64(n).Some? then AsI64(n).value
                   else if AsU64(n).Some? then U64AsI64(AsU64(n).value)
                   else -1;
          if v == 0 || v == 1 then Accept(if v == 1 then 1.0 else 0.0)
          else Reject(OutOfRange, Some(v as real))
        else Reject(TypeMismatch, None)
      case (Analog, Number(n)) =>
        if IsF64(n) then
          var f := AsF64(n);
          if f.Some? && ANALOG_MIN <= f.value <= ANALOG_MAX then Accept(f.value)
          else Reject(OutOfRange, f)
        else Reject(TypeMismatch, None)
      case _ => Reject(TypeMismatch, None))
    case None =>
      var stored := (match value
                     case Number(n) => AsF64(n)
                     case _ => None);
      Reject(UnknownSignal, stored)
  }

  /** An unregistered name is always rejected as unknown, keeping the number when there is one. */
  lemma ClassifyUnknown(value: JsonValue)
    ensures var o := Classify(None, value);
      o.Reject? && o.reason == UnknownSignal &&
      o.stored == (match value
                   case Number(_) =>
                     if StoredInteger(value).Some? then Some(StoredInteger(value).value as real)
                     else StoredFloat(value)
                   case _ => None)
  {
  }

  /**
   * A digital signal is accepted exactly for the stored integers 0 and 1,
   * with that value; another stored integer is out of range and kept as the
   * i64 it converts to; anything else, floats included, is a type mismatch.
   */
  lemma ClassifyDigital(value: JsonValue)
    ensures var o := Classify(Some(Digital), value);
      (o.Accept? <==> StoredInteger(value) == Some(0) || StoredInteger(value) == Some(1)) &&
      (o.Accept? ==> o.value == StoredInteger(value).value as real) &&
      (StoredInteger(value).Some? && I64_MIN <= StoredInteger(value).value <= I64_MAX && !o.Accept? ==>
         o == Reject(OutOfRange, Some(StoredInteger(value).value as real))) &&
      (StoredInteger(value).Some? && StoredInteger(value).value > I64_MAX ==>
         o == Reject(OutOfRange, Some((StoredInteger(value).value - TWO_TO_64) as real))) &&
      (StoredInteger(value).None? ==> o == Reject(TypeMismatch, None))
  {
  }

  /**
   * An analog signal takes only numbers stored as floats: inside
   * [1.0, 65535.0] it is accepted unchanged, outside it is out of range with
   * its value stored; a stored integer or a non-number is a type mismatch.
   */
  lemma ClassifyAnalog(value: JsonValue)
    ensures var o := Classify(Some(Analog), value);
      (StoredFloat(value).Some? ==>
         var f := StoredFloat(value).value;
         (o.Accept? <==> ANALOG_MIN <= f <= ANALOG_MAX) &&
         (o.Accept? ==> o.value == f) &&
         (!o.Accept? ==> o == Reject(OutOfRange, Some(f)))) &&
      (StoredFloat(value).None? ==> o == Reject(TypeMismatch, None))
  {
  }

  /**
   * An integer literal too wide for 64 bits reaches the handler as a float:
   * for a digital signal it is a type mismatch, not out of range, and for an
   * analog signal it is out of range with its value stored, not a type mismatch.
   */
  lemma WideIntegerLiterals(n: int)
    requires n < I64_MIN || TWO_TO_64 <= n
    ensures Classify(Some(Digital), Number(ParsedInteger(n))) == Reject(TypeMismatch, None)
    ensures Classify(Some(Analog), Number(ParsedInteger(n))) == Reject(OutOfRange, Some(n as real))
  {
  }

  /** One entry of the payload's `signals` object. */
  datatype Signal = Signal(name: string, value: JsonValue)

  /**
   * The request body. `signals` is a JSON object, so its names are distinct
   * (see `DistinctNames`) and its iteration order is unspecified; `epochUTC`
   * is never read by the handler.
   */
  datatype TelemetryRequest = TelemetryRequest(vesselId: string, timestampUTC: string,
                                               epochUTC: Option<int>, signals: seq<Signal>)

  /** The deserialized `signals` map never holds two entries with one name. */
  predicate DistinctNames(signals: seq<Signal>) {
    forall i, j :: 0 <= i < j < |signals| ==> signals[i].name != signals[j].name
  }

  function OutcomeOf(registry: Registry, s: Signal): Outcome {
    Classify(Lookup(registry, s.name), s.value)
  }

  /** An accepted signal, as pushed onto `valid_signals`. */
  datatype ParsedSignal = ParsedSignal(name: string, value: real)

  /** A rejected signal, as passed to `insert_filtered`. */
  datatype Rejection = Rejection(name: string, stored: Option<real>, reason: Reason)

  /** Both destinations of a payload, each in iteration order. */
  datatype Routing = Routing(accepted: seq<ParsedSignal>, rejected: seq<Rejection>)

  /** What the signal loop produces for signals taken in the given order. */
  function Route(registry: Registry, signals: seq<Signal>): (p: Routing)
    ensures |p.accepted| + |p.rejected| == |signals|
    decreases |signals|
  {
    if signals == [] then Routing([], [])
    else
      var prev := Route(registry, signals[..|signals| - 1]);
      var s := signals[|signals| - 1];
      match OutcomeOf(registry, s)
      case Accept(v) => Routing(prev.accepted + [ParsedSignal(s.name, v)], prev.rejected)
      case Reject(reason, stored) => Routing(prev.accepted, prev.rejected + [Rejection(s.name, stored, reason)])
  }

  function FilteredRowOf(vesselId: string, ts: Timestamp, r: Rejection): FilteredRow {
    FilteredRow(vesselId, ts, r.name, r.stored, r.reason.Code())
  }

  function FilteredRows(vesselId: string, ts: Timestamp, rejected: seq<Rejection>): seq<FilteredRow> {
    seq(|rejected|, k requires 0 <= k < |rejected| => FilteredRowOf(vesselId, ts, rejected[k]))
  }

  function RawRowOf(vesselId: string, ts: Timestamp, p: ParsedSignal): RawRow {
    RawRow(vesselId, ts, p.name, p.value)
  }

  function RawRows(vesselId: string, ts: Timestamp, accepted: seq<ParsedSignal>): seq<RawRow> {
    seq(|accepted|, k requires 0 <= k < |accepted| => RawRowOf(vesselId, ts, accepted[k]))
  }

  /** `after` is `before` followed by the first few of `rows`. */
  predicate AppendedPrefix<T(==)>(before: seq<T>, after: seq<T>, rows: seq<T>) {
    |before| <= |after| <= |before| + |rows| &&
    after == before + rows[..|after| - |before|]
  }

  /** The wall-clock readings of one request, in milliseconds; opaque to the model. */
  datatype Timings = Timings(validationMs: int, ingestionMs: int, totalMs: int)

  /** The success body `{"ok": true, "vesselId", "validSignals", "validationMs", "ingestionMs", "totalMs"}`. */
  datatype Summary = Summary(vesselId: string, validSignals: nat,
                             validationMs: int, ingestionMs: int, totalMs: int)

  datatype Response = Ok(body: Summary) | Err(status: nat, message: string)

  const BAD_REQUEST: Response := Err(400, "Invalid timestampUTC")
  const FORBIDDEN: Response := Err(403, "Unknown or inactive vessel")
  /** `internal_err`: every database failure becomes the same generic 500. */
  const INTERNAL_ERROR: Response := Err(500, "Internal Server Error")
  /**
   * The signal loop of `ingest_telemetry`: classify each signal, keep the
   * accepted ones in order and write each rejected one to `filtered_raw`
   * straight away. `ok` is false when a write failed, which ends the loop.
   */
  method FilterSignals(db: Database, registry: Registry, vesselId: string, ts: Timestamp,
                       signals: seq<Signal>) returns (ok: bool, validSignals: seq<ParsedSignal>)
    modifies db`filteredRaw, db`failures
    ensures db.failures == if ok then old(db.failures) else old(db.failures) + 1
    ensures var filtered := FilteredRows(vesselId, ts, Route(registry, signals).rejected);
            if ok then
              validSignals == Route(registry, signals).accepted &&
              db.filteredRaw == old(db.filteredRaw) + filtered
            else AppendedPrefix(old(db.filteredRaw), db.filteredRaw, filtered)
  {
    validSignals := [];
    var i := 0;
    while i < |signals|
      invariant 0 <= i <= |signals|
      invariant validSignals == Route(registry, signals[..i]).accepted
      invariant db.filteredRaw == old(db.filteredRaw) + FilteredRows(vesselId, ts, Route(registry, signals[..i]).rejected)
      invariant db.failures == old(db.failures)
    {
      var s := signals[i];
      RouteStep(registry, signals, i);
      match Classify(Lookup(registry, s.name), s.value) {
        case Accept(v) =>
          validSignals := validSignals + [ParsedSignal(s.name, v)];
        case Reject(reason, stored) =>
          ok := db.InsertFiltered(FilteredRow(vesselId, ts, s.name, stored, reason.Code()));
          if !ok {
            FilteredPrefix(registry, vesselId, ts, signals, i, old(db.filteredRaw));
            return;
          }
          FilteredAppend(vesselId, ts, Route(registry, signals[..i]).rejected, Rejection(s.name, stored, reason));
      }
      i := i + 1;
    }
    assert signals[..i] == signals;
    ok := true;
  }

  /** The second loop of `ingest_telemetry`: write the accepted signals to `main_raw` in order. */
  method StoreAccepted(db: Database, vesselId: string, ts: Timestamp, validSignals: seq<ParsedSignal>)
    returns (ok: bool)
    modifies db`mainRaw, db`failures
    ensures db.failures == if ok then old(db.failures) else old(db.failures) + 1
    ensures var raw := RawRows(vesselId, ts, validSignals);
            if ok then db.mainRaw == old(db.mainRaw) + raw
            else AppendedPrefix(old(db.mainRaw), db.mainRaw, raw)
  {
    ghost var raw := RawRows(vesselId, ts, validSignals);
    var j := 0;
    while j < |validSignals|
      invariant 0 <= j <= |validSignals|
      invariant db.mainRaw == old(db.mainRaw) + raw[..j]
      invariant db.failures == old(db.failures)
    {
      var sig := validSignals[j];
      ok := db.InsertRaw(RawRow(vesselId, ts, sig.name, sig.value));
      if !ok {
        return;
      }
      assert raw[..j + 1] == raw[..j] + [raw[j]];
      j := j + 1;
    }
    assert raw[..j] == raw;
    ok := true;
  }

  /**
   * `ingest_telemetry`. `parsedTs` is the outcome of parsing `timestampUTC`
   * as RFC 3339 (`None` when it does not parse) and `clock` holds the three
   * elapsed times the handler measures.
   */
  method IngestTelemetry(db: Database, registry: Registry, payload: TelemetryRequest,
                         parsedTs: Option<Timestamp>, clock: Timings) returns (resp: Response)
    modifies db
    ensures db.activeVessels == old(db.activeVessels)
    ensures resp.Err? ==> resp == BAD_REQUEST || resp == FORBIDDEN || resp == INTERNAL_ERROR
    // a bad timestamp, and only a bad timestamp, gives 400, before the vessel is consulted
    ensures resp == BAD_REQUEST <==> parsedTs.None?
    ensures parsedTs.None? ==> unchanged(db)
    // the first failed statement ends the request with the generic 500, and only a failure does
    ensures db.failures <= old(db.failures) + 1
    ensures resp == INTERNAL_ERROR <==> db.failures != old(db.failures)
    ensures resp == FORBIDDEN <==>
      parsedTs.Some? && payload.vesselId !in db.activeVessels && db.failures == old(db.failures)
    // with a good timestamp, an active vessel and no failure the request succeeds,
    // however many signals were rejected
    ensures resp.Ok? <==>
      parsedTs.Some? && payload.vesselId in db.activeVessels && db.failures == old(db.failures)
    // an unknown or inactive vessel writes nothing
    ensures parsedTs.Some? && payload.vesselId !in db.activeVessels ==>
      (resp == FORBIDDEN || resp == INTERNAL_ERROR) &&
      db.mainRaw == old(db.mainRaw) && db.filteredRaw == old(db.filteredRaw) &&
      db.serverMetrics == old(db.serverMetrics)
    // success: every rejected signal filtered, every accepted one stored, one metrics row
    ensures resp.Ok? ==>
      parsedTs.Some? && payload.vesselId in db.activeVessels &&
      var p := Route(registry, payload.signals);
      db.filteredRaw == old(db.filteredRaw) + FilteredRows(payload.vesselId, parsedTs.value, p.rejected) &&
      db.mainRaw == old(db.mainRaw) + RawRows(payload.vesselId, parsedTs.value, p.accepted) &&
      db.serverMetrics == old(db.serverMetrics) +
                          [MetricsRow(payload.vesselId, clock.validationMs, clock.ingestionMs, clock.totalMs)] &&
      resp.body == Summary(payload.vesselId, |p.accepted|, clock.validationMs, clock.ingestionMs, clock.totalMs)
    // a failed write stops the request: filtered rows come before raw rows, no metrics row
    ensures resp == INTERNAL_ERROR ==>
      parsedTs.Some? && db.serverMetrics == old(db.serverMetrics) &&
      var p := Route(registry, payload.signals);
      var filtered := FilteredRows(payload.vesselId, parsedTs.value, p.rejected);
      var raw := RawRows(payload.vesselId, parsedTs.value, p.accepted);
      ((db.mainRaw == old(db.mainRaw) && AppendedPrefix(old(db.filteredRaw), db.filteredRaw, filtered)) ||
       (db.filteredRaw == old(db.filteredRaw) + filtered && AppendedPrefix(old(db.mainRaw), db.mainRaw, raw)))
  {
    var vesselId := payload.vesselId;
    if parsedTs.None? {
      return BAD_REQUEST;
    }
    var ts := parsedTs.value;
    var exists_ := db.VesselExists(vesselId);
    if exists_.None? {
      return INTERNAL_ERROR;
    }
    if !exists_.value {
      return FORBIDDEN;
    }
    var ok, validSignals := FilterSignals(db, registry, vesselId, ts, payload.signals);
    if !ok {
      return INTERNAL_ERROR;
    }
    ok := StoreAccepted(db, vesselId, ts, validSignals);
    if !ok {
      return INTERNAL_ERROR;
    }
    ok := db.InsertMetrics(MetricsRow(vesselId, clock.validationMs, clock.ingestionMs, clock.totalMs));
    if !ok {
      return INTERNAL_ERROR;
    }
    resp := Ok(Summary(vesselId, |validSignals|, clock.validationMs, clock.ingestionMs, clock.totalMs));
  }

  /** One more signal extends exactly the destination its outcome names. */
  lemma RouteStep(registry: Registry, signals: seq<Signal>, i: nat)
    requires i < |signals|
    ensures var pre := Route(registry, signals[..i]);
            var s := signals[i];
            Route(registry, signals[..i + 1]) ==
              match OutcomeOf(registry, s)
              case Accept(v) => Routing(pre.accepted + [ParsedSignal(s.name, v)], pre.rejected)
              case Reject(reason, stored) => Routing(pre.accepted, pre.rejected + [Rejection(s.name, stored, reason)])
  {
    assert signals[..i + 1][..i] == signals[..i];
  }

  /** One more rejection adds its one row at the end of the filtered rows. */
  lemma FilteredAppend(vesselId: string, ts: Timestamp, rejected: seq<Rejection>, r: Rejection)
    ensures FilteredRows(vesselId, ts, rejected + [r]) ==
            FilteredRows(vesselId, ts, rejected) + [FilteredRowOf(vesselId, ts, r)]
  {
  }

  /** The filtered rows written for the first signals are a prefix of those for all of them. */
  lemma FilteredPrefix(registry: Registry, vesselId: string, ts: Timestamp, signals: seq<Signal>,
                       i: nat, before: seq<FilteredRow>)
    requires i <= |signals|
    ensures AppendedPrefix(before, before + FilteredRows(vesselId, ts, Route(registry, signals[..i]).rejected),
                           FilteredRows(vesselId, ts, Route(registry, signals).rejected))
  {
    RoutePrefix(registry, signals, i);
    var done := Route(registry, signals[..i]).rejected;
    var all := Route(registry, signals).rejected;
    assert FilteredRows(vesselId, ts, done) == FilteredRows(vesselId, ts, all)[..|done|];
  }

  /** Routing a concatenation routes each part and concatenates both destinations. */
  lemma {:induction false} RouteAppend(registry: Registry, a: seq<Signal>, b: seq<Signal>)
    ensures Route(registry, a + b) ==
            Routing(Route(registry, a).accepted + Route(registry, b).accepted,
                    Route(registry, a).rejected + Route(registry, b).rejected)
    decreases |b|
  {
    if b == [] {
      assert a + b == a;
    } else {
      var b' := b[..|b| - 1];
      assert (a + b)[..|a + b| - 1] == a + b';
      assert (a + b)[|a + b| - 1] == b[|b| - 1];
      RouteAppend(registry, a, b');
    }
  }

  /** The signals seen so far have produced a prefix of both destinations. */
  lemma RoutePrefix(registry: Registry, signals: seq<Signal>, i: nat)
    requires i <= |signals|
    ensures var pre := Route(registry, signals[..i]);
            var all := Route(registry, signals);
            |pre.accepted| <= |all.accepted| && pre.accepted == all.accepted[..|pre.accepted|] &&
            |pre.rejected| <= |all.rejected| && pre.rejected == all.rejected[..|pre.rejected|]
  {
    assert signals == signals[..i] + signals[i..];
    RouteAppend(registry, signals[..i], signals[i..]);
  }

  /** Every signal lands in the destination its outcome names, with its value or reason. */
  lemma {:induction false} RouteComplete(registry: Registry, signals: seq<Signal>)
    ensures forall s :: s in signals && OutcomeOf(registry, s).Accept? ==>
              ParsedSignal(s.name, OutcomeOf(registry, s).value) in Route(registry, signals).accepted
    ensures forall s :: s in signals && OutcomeOf(registry, s).Reject? ==>
              Rejection(s.name, OutcomeOf(registry, s).stored, OutcomeOf(registry, s).reason)
                in Route(registry, signals).rejected
    decreases |signals|
  {
    if signals != [] {
      var prefix := signals[..|signals| - 1];
      RouteComplete(registry, prefix);
      assert signals == prefix + [signals[|signals| - 1]];
    }
  }

  /** Nothing lands in a destination except a payload signal with that outcome. */
  lemma {:induction false} RouteSound(registry: Registry, signals: seq<Signal>)
    ensures forall a :: a in Route(registry, signals).accepted ==>
              exists s :: s in signals && s.name == a.name && OutcomeOf(registry, s) == Accept(a.value)
    ensures forall r :: r in Route(registry, signals).rejected ==>
              exists s :: s in signals && s.name == r.name && OutcomeOf(registry, s) == Reject(r.reason, r.stored)
    decreases |signals|
  {
    if signals != [] {
      var prefix := signals[..|signals| - 1];
      RouteSound(registry, prefix);
      assert signals == prefix + [signals[|signals| - 1]];
    }
  }

  function AcceptedNames(p: Routing): set<string> {
    set a | a in p.accepted :: a.name
  }

  function RejectedNames(p: Routing): set<string> {
    set r | r in p.rejected :: r.name
  }

  function SignalNames(signals: seq<Signal>): set<string> {
    set s | s in signals :: s.name
  }

  /** The accepted and rejected names split the payload's names with no overlap and no omission. */
  lemma RoutePartition(registry: Registry, signals: seq<Signal>)
    requires DistinctNames(signals)
    ensures AcceptedNames(Route(registry, signals)) * RejectedNames(Route(registry, signals)) == {}
    ensures AcceptedNames(Route(registry, signals)) + RejectedNames(Route(registry, signals)) == SignalNames(signals)
  {
    var p := Route(registry, signals);
    RouteComplete(registry, signals);
    RouteSound(registry, signals);
    forall n | n in AcceptedNames(p)
      ensures n !in RejectedNames(p)
    {
      var a :| a in p.accepted && a.name == n;
      var s1 :| s1 in signals && s1.name == n && OutcomeOf(registry, s1) == Accept(a.value);
      forall r | r in p.rejected
        ensures r.name != n
      {
        var s2 :| s2 in signals && s2.name == r.name && OutcomeOf(registry, s2) == Reject(r.reason, r.stored);
        var i1 :| 0 <= i1 < |signals| && signals[i1] == s1;
        var i2 :| 0 <= i2 < |signals| && signals[i2] == s2;
        assert i1 != i2;
      }
    }
    forall n | n in SignalNames(signals)
      ensures n in AcceptedNames(p) + RejectedNames(p)
    {
      var s :| s in signals && s.name == n;
      match OutcomeOf(registry, s)
      case Accept(v) =>
        assert ParsedSignal(n, v) in p.accepted;
      case Reject(reason, stored) =>
        assert Rejection(n, stored, reason) in p.rejected;
    }
    forall n | n in AcceptedNames(p) + RejectedNames(p)
      ensures n in SignalNames(signals)
    {
      if n in AcceptedNames(p) {
        var a :| a in p.accepted && a.name == n;
        var s :| s in signals && s.name == n && OutcomeOf(registry, s) == Accept(a.value);
      } else {
        var r :| r in p.rejected && r.name == n;
        var s :| s in signals && s.name == n && OutcomeOf(registry, s) == Reject(r.reason, r.stored);
      }
    }
  }

  lemma MultisetWithout<T>(s: seq<T>, k: nat)
    requires k < |s|
    ensures multiset(s[..k] + s[k + 1..]) == multiset(s) - multiset{s[k]}
  {
    assert s == s[..k] + [s[k]] + s[k + 1..];
  }

  /** Routing with one signal inserted adds exactly that signal's routing to each destination. */
  lemma RouteInsert(registry: Registry, a: seq<Signal>, x: Signal, b: seq<Signal>)
    ensures multiset(Route(registry, a + [x] + b).accepted) ==
            multiset(Route(registry, a + b).accepted) + multiset(Route(registry, [x]).accepted)
    ensures multiset(Route(registry, a + [x] + b).rejected) ==
            multiset(Route(registry, a + b).rejected) + multiset(Route(registry, [x]).rejected)
  {
    var ra, rx, rb := Route(registry, a), Route(registry, [x]), Route(registry, b);
    RouteAppend(registry, a, [x]);
    RouteAppend(registry, a + [x], b);
    RouteAppend(registry, a, b);
    assert Route(registry, a + [x] + b) == Routing(ra.accepted + rx.accepted + rb.accepted,
                                                   ra.rejected + rx.rejected + rb.rejected);
    assert multiset(ra.accepted + rx.accepted + rb.accepted) ==
           multiset(ra.accepted + rb.accepted) + multiset(rx.accepted);
    assert multiset(ra.rejected + rx.rejected + rb.rejected) ==
           multiset(ra.rejected + rb.rejected) + multiset(rx.rejected);
  }

  /** Iteration order does not matter: reordering the payload permutes each destination. */
  lemma {:induction false} RouteOrderIndependent(registry: Registry, s1: seq<Signal>, s2: seq<Signal>)
    requires multiset(s1) == multiset(s2)
    ensures multiset(Route(registry, s1).accepted) == multiset(Route(registry, s2).accepted)
    ensures multiset(Route(registry, s1).rejected) == multiset(Route(registry, s2).rejected)
    decreases |s1|
  {
    if s1 != [] {
      var n := |s1| - 1;
      var x := s1[n];
      assert x in multiset(s2);
      var k :| 0 <= k < |s2| && s2[k] == x;
      var head1, a, b := s1[..n], s2[..k], s2[k + 1..];
      assert head1 + [x] == s1;
      assert a + [x] + b == s2;
      assert head1 + s1[n + 1..] == head1;
      MultisetWithout(s1, n);
      MultisetWithout(s2, k);
      RouteOrderIndependent(registry, head1, a + b);
      RouteAppend(registry, head1, [x]);
      RouteInsert(registry, a, x, b);
    }
  }

  /**
   * A mixed payload on an active vessel: a digital 1 and an in-range analog
   * float are kept, an unregistered name is filtered as "unknown_signal"
   * with its number stored.
   */
  lemma MixedPayloadRouting()
    ensures var registry := map["Signal_1" := Digital, "Signal_70" := Analog];
            var signals := [Signal("Signal_1", Number(PosInt(1))),
                            Signal("Signal_70", Number(Float(123.4))),
                            Signal("Signal_999", Number(Float(3.14)))];
            Route(registry, signals) ==
              Routing([ParsedSignal("Signal_1", 1.0), ParsedSignal("Signal_70", 123.4)],
                      [Rejection("Signal_999", Some(3.14), UnknownSignal)])
  {
  }

  /**
   * A boolean for a digital signal and a numeric string for an analog one
   * are both type mismatches, so no signal is accepted. By the contract of
   * `IngestTelemetry` such a request still answers `Ok` with zero valid
   * signals when nothing fails.
   */
  lemma AllRejectedPayload()
    ensures var registry := map["Signal_1" := Digital, "Signal_70" := Analog];
            var signals := [Signal("Signal_1", Bool(true)), Signal("Signal_70", Str("123.4"))];
            Route(registry, signals) ==
              Routing([], [Rejection("Signal_1", None, TypeMismatch), Rejection("Signal_70", None, TypeMismatch)])
  {
  }

}

=== FILE: wrappers.dfy ===
/** Optional values, standing in for Rust's `Option` and for an `f64` that may be NaN. */
module Wrappers {

  datatype Option<+T> = None | Some(value: T)

}
